=== FILE: README.md ===
# Ronin's Maths Tool — offline cache, relay and generation history in Dafny

This project models the three pieces of logic in the Ronin's Maths Tool
repository that do more than render UI:

- **The service worker's offline cache layer** (`service-worker.js`). The
  browser's CacheStorage is a value `Store`: cache names in creation order and,
  per name, a map from request URL to stored response. The routing of
  intercepted requests is `Classify`. The font policy (network first) is
  `FontPolicy` and the cache-first policy with background refresh is
  `CacheFirstPolicy`. Install (mandatory pre-cache all-or-nothing, then the font
  stylesheet best-effort), activate (delete every cache not named
  `ronins-maths-v4.0`) and the `SKIP_WAITING` message are each one atomic step.
  Each step is a pure function from the store, the request and the network's
  answer to a reply and a new store. Class `ServiceWorker.Worker` holds the
  store in its fields. Its listener methods make the same changes one
  CacheStorage call at a time and are proved equal to those functions. The
  activate listener loops over the cache names, deleting as it goes.
- **The serverless relay** (`netlify/functions/generate.js`). The model has the
  method gate, the split of an image's data URL into MIME type and payload,
  and the construction of the model's input parts. It also has fence
  stripping (the three `replace` calls) and the 200/405/500 envelopes. The
  model call is a function passed to `Relay.Handle`.
- **The generation and history handlers** (`App.tsx`). Class `App.AppState`
  has the state slots as fields. `handleGenerate` is split at its `await` into
  `BeginGenerate` and `FinishGenerate`, and `HandleGenerate` runs both.
  `handleSelectHistory` and `handleClearHistory` are methods too. The
  user-facing error text (`ErrorMessage`) and the selected history id
  (`SelectedId`) are pure functions.

`JsString` gives the ECMAScript string operations these rely on:
`startsWith`, `includes`, `trim`, `split`, the regular-expression class `\s`,
case-insensitive letters and `toString` of a whole number. `Wrappers` gives
`Option` (`undefined`/`null` versus a value).

Browser behaviour follows the W3C Service Workers specification.
`caches.match` looks through every cache in creation order, not only the
current one. `caches.open` creates a missing cache, empty and last in order.
`cache.addAll` stores all of its responses or none of them. It refuses a
network error, a status outside 200–299, and 206. `cache.put` refuses 206.

## Model

| member | source | states |
|---|---|---|
| `ServiceWorker.Open` | service-worker.js:18 | `caches.open` keeps every existing cache as it is and, when the named cache is missing, creates it empty and last in creation order |
| `ServiceWorker.Put` | service-worker.js:70-72 | open then `cache.put` sets exactly one entry of the named cache, leaves every other cache alone and changes the creation order only as `caches.open` does |
| `ServiceWorker.Delete` | service-worker.js:45 | `caches.delete` removes the named cache and cuts its name out of the creation order, the others keeping their order; a missing name changes nothing |
| `ServiceWorker.Match` | service-worker.js:84 | `caches.match` finds a response exactly when some cache, of any name, holds the URL, and the response is that cache's entry |
| `ServiceWorker.MatchIn` | service-worker.js:76 | the match returns the entry of the first cache in creation order that holds the URL |
| `ServiceWorker.AddAll` | service-worker.js:20 | `cache.addAll` writes every fetched response, or none when any one is refused; entries for other URLs, all other caches and the creation order are kept |
| `ServiceWorker.Classify` | service-worker.js:56-65 | the request is bypassed exactly when it is not GET or its URL contains "extension", so font URLs with "extension" are bypassed too; it is network-first exactly for the rest that name a font host |
| `ServiceWorker.ChromeExtensionIncludesExtension` | service-worker.js:62 | the `chrome-extension` prefix test is subsumed by the `includes('extension')` test |
| `ServiceWorker.FontPolicy` | service-worker.js:65-78 | online, the response is returned and stored under CACHE_NAME whatever its status (206 is refused by put); offline, the reply is what `caches.match` finds, else a network error, and nothing changes |
| `ServiceWorker.CacheFirstPolicy` | service-worker.js:83-113 | a hit returns the cached entry and only a 200 refresh overwrites it; a miss returns the network response and stores it only at 200; offline it returns the offline page and stores nothing |
| `ServiceWorker.Fetch` | service-worker.js:55-115 | only a bypassed request is not intercepted; a bypass or a network failure writes nothing; no cache is deleted, only CACHE_NAME can be created or written, and every other cache keeps its entries |
| `ServiceWorker.Install` | service-worker.js:15-33 | install completes exactly when both mandatory files are accepted; a failed install only leaves CACHE_NAME opened; other caches are untouched; the creation order is that of `caches.open(CACHE_NAME)` |
| `ServiceWorker.Activate` | service-worker.js:36-52 | afterwards only CACHE_NAME can remain, with the entries it had |
| `ServiceWorker.Worker.OpenCache` | service-worker.js:18 | the worker's storage becomes `Open` of the old storage |
| `ServiceWorker.Worker.PutEntry` | service-worker.js:90-92 | the worker's storage becomes `Put` of the old storage |
| `ServiceWorker.Worker.DeleteCache` | service-worker.js:45 | the storage becomes `Delete` of the old one; the result says whether the cache existed |
| `ServiceWorker.Worker.AddAllEntries` | service-worker.js:20-22 | the storage becomes the all-or-nothing `AddAll` result, and the result says which case happened |
| `ServiceWorker.Worker.OnInstall` | service-worker.js:15-33 | the listener's outcome and new storage are `Install`'s; skipWaiting is called exactly when install completes |
| `ServiceWorker.Worker.OnActivate` | service-worker.js:36-52 | deleting the old caches one by one yields `Activate` of the old storage; clients are claimed |
| `ServiceWorker.Worker.OnFetch` | service-worker.js:55-115 | the listener's reply and new storage are `Fetch`'s |
| `ServiceWorker.Worker.FetchFont` | service-worker.js:66-78 | the font branch's reply and new storage are `FontPolicy`'s |
| `ServiceWorker.Worker.FetchCacheFirst` | service-worker.js:83-113 | the cache-first branch's reply and new storage are `CacheFirstPolicy`'s |
| `ServiceWorker.Worker.OnMessage` | service-worker.js:118-122 | skipWaiting is requested exactly for a message whose type is "SKIP_WAITING" |
| `ServiceWorker.NonGetNotIntercepted` | service-worker.js:59 | a non-GET request is not intercepted and leaves every cache unchanged |
| `ServiceWorker.ExtensionUrlsNotIntercepted` | service-worker.js:62-65 | a GET whose URL starts with "chrome-extension" or contains "extension" is not intercepted, even for a font host |
| `ServiceWorker.FontOnlineCaches` | service-worker.js:67-74 | a font response is returned unchanged and stored under CACHE_NAME for its URL; no other entry or cache changes |
| `ServiceWorker.FontOfflineFallsBack` | service-worker.js:75-77 | a font request while offline gets the entry of some cache holding the URL; it gets a network error when none does; nothing is written |
| `ServiceWorker.CacheHitServesStored` | service-worker.js:84-97 | a hit returns exactly the cached entry; the refresh overwrites only on 200; any other outcome leaves the store unchanged |
| `ServiceWorker.CacheMissGoesToNetwork` | service-worker.js:99-112 | a miss stores and returns a 200 response, and returns any other status without storing it; offline it returns the text/html offline page and stores nothing |
| `ServiceWorker.MatchUnique` | service-worker.js:84 | when only one cache holds the URL, the match returns that cache's entry |
| `ServiceWorker.FetchWritesOnlyItsUrl` | service-worker.js:55-115 | a fetch never adds, removes or changes the entry for any other URL, in any cache |
| `ServiceWorker.PutIdempotent` | service-worker.js:71 | writing the same response for the same key twice equals writing it once |
| `ServiceWorker.InstallAllOrNothing` | service-worker.js:18-20 | if either mandatory file is refused, install does not complete and no entry is written; CACHE_NAME may be left behind, empty |
| `ServiceWorker.InstallFontIsBestEffort` | service-worker.js:20-31 | with both mandatory files accepted, install completes and stores them; the stylesheet is stored only when accepted, and when it is refused an entry CACHE_NAME already held for it stays, with its value |
| `ServiceWorker.InstallKeepsOtherEntries` | service-worker.js:15-33 | install adds no entry to CACHE_NAME outside its two URL lists and keeps every other entry CACHE_NAME held, with its value |
| `ServiceWorker.InstallIgnoresCacheFiles` | service-worker.js:6-12 | the icons listed in CACHE_FILES are never pre-cached: install neither adds nor changes their entries in CACHE_NAME |
| `ServiceWorker.MatchAfterActivate` | service-worker.js:39-47 | after activate, a lookup is answered only from CACHE_NAME, with the entry it held |
| `ServiceWorker.ActivateIdempotent` | service-worker.js:39-47 | activating twice equals activating once |
| `ServiceWorker.EarlierCacheAnswersFirst` | service-worker.js:84 | match order: a cache created before CACHE_NAME that holds the URL answers first, even when CACHE_NAME holds a newer entry; after activate CACHE_NAME's entry is served |
| `ServiceWorker.IndexIsCacheFirst` | service-worker.js:59-65 | "./index.html" is routed cache-first |
| `ServiceWorker.OfflineFontInstallServesIndex` | service-worker.js:15-52 | install with the font host offline still completes; after activate, "./index.html" is served from the cache with no network |
| `JsString.TrimStart` | netlify/functions/generate.js:69 | `\s*` removes the longest leading run of white space and nothing else |
| `JsString.TrimEnd` | netlify/functions/generate.js:54 | the longest trailing run of white space is removed and nothing else |
| `JsString.Trim` | netlify/functions/generate.js:54 | `trim()` gives the piece `s[i..j]` of the input where everything before `i` and from `j` on is white space and the piece neither starts nor ends with white space; it is empty exactly when the input is all white space |
| `JsString.Split` | netlify/functions/generate.js:51-52 | `split(sep)` gives at least one piece; no piece contains the separator; joining the pieces gives the input back |
| `JsString.Piece` | netlify/functions/generate.js:51-52 | `split(sep)[k]` is defined exactly when there are more than k pieces, and is then the k-th piece, free of the separator |
| `JsString.SplitNoSeparator` | netlify/functions/generate.js:51 | a string without the separator splits into itself |
| `JsString.SplitAtFirst` | netlify/functions/generate.js:52 | the first separator ends the first piece |
| `JsString.SplitJoin` | netlify/functions/generate.js:51-52 | splitting undoes joining when no part holds the separator |
| `JsString.SplitSingle` | netlify/functions/generate.js:51 | there is a second piece exactly when the separator occurs |
| `JsString.LowerAscii` | netlify/functions/generate.js:69 | maps each ASCII capital to its lower case (code point + 32) and leaves every other character alone, so under `/i` the letters of "html" match exactly their two ASCII cases |
| `JsString.DecimalString` | App.tsx:46 | `toString()` of a whole number is a non-empty digit string without leading zeros |
| `JsString.DecimalRoundTrip` | App.tsx:46 | reading the digits back gives the number, so distinct clock readings give distinct ids |
| `JsString.StartsWithIncludes` | service-worker.js:62 | a prefix is also an occurrence |
| `Relay.ImagePart` | netlify/functions/generate.js:51-53 | the payload exists exactly when the URL has a comma, and then contains no comma; the MIME type exists exactly when the part before the first `;` has a colon |
| `Relay.DataUrlRoundTrip` | netlify/functions/generate.js:51-52 | for a MIME type without `:;,` and a payload without `,`, "data:M;base64,D" splits back into M and D |
| `Relay.ImagePrompt` | netlify/functions/generate.js:54 | the image prompt is the trimmed prompt, or the default request when it is absent or white space only; never empty |
| `Relay.Parts` | netlify/functions/generate.js:48-57 | with a non-empty image the parts are the image then a non-empty text; otherwise the untrimmed prompt alone |
| `Relay.DropHtmlFence` | netlify/functions/generate.js:69 | the result is a suffix of the input, shorter exactly when the input opens with "```html" in any letter case; then only white space was removed after the fence and the rest does not start with white space |
| `Relay.DropOpeningFence` | netlify/functions/generate.js:69 | the result is a suffix of the input, shorter exactly when the input opens with "```"; then only white space was removed after the fence and the rest does not start with white space |
| `Relay.DropClosingFence` | netlify/functions/generate.js:69 | the result is a prefix of the input; what is cut off is nothing or a final "```", and it is cut exactly when the input ends with one |
| `Relay.StripFences` | netlify/functions/generate.js:68-69 | the result is never longer than the model's text; text that neither starts nor ends with a fence comes back unchanged |
| `Relay.StripFencesIsPiece` | netlify/functions/generate.js:69 | the result is a contiguous piece of the model's text |
| `Relay.StripHtmlFenced` | netlify/functions/generate.js:69 | for a body that starts with neither white space nor a backtick, "```html" (any case) + white space + body + "```" strips to exactly the body |
| `Relay.StripPlainFenced` | netlify/functions/generate.js:69 | for a body that starts with neither white space nor a backtick, "```" + at least one white-space character + body + "```" strips to exactly the body |
| `Relay.TrailingNewlineKeepsFence` | netlify/functions/generate.js:69 | a closing fence followed by a newline is not removed |
| `Relay.ErrorResponse` | netlify/functions/generate.js:76-82 | status 500 with the error's message, or "Something went wrong" when the message is missing or empty |
| `Relay.Handle` | netlify/functions/generate.js:37-83 | the status is 405 exactly for non-POST, with "Method Not Allowed"; it is 200 exactly for a parsed body the model answers, with the fence-stripped answer text as JSON code; an unparsable body or a model error gives `ErrorResponse` of its message; every 500 carries a non-empty error |
| `Relay.NonPostIgnoresModel` | netlify/functions/generate.js:39-41 | for a non-POST request the response does not depend on the model |
| `Relay.MissingTextGivesEmptyCode` | netlify/functions/generate.js:68-75 | an answer without text yields 200 with empty code |
| `Relay.FencedAnswerUnwrapped` | netlify/functions/generate.js:59-75 | a fenced HTML answer reaches the browser as the bare HTML |
| `Relay.ThrownErrorReported` | netlify/functions/generate.js:76-82 | a model error becomes a 500 with its message, or "Something went wrong" when the message is missing or empty |
| `App.ErrorMessage` | App.tsx:53-59 | a message containing API_KEY maps to the API key notice; any other non-empty message is shown as is; a missing or empty one gets the generic text; the result is never empty |
| `App.HistoryPrompt` | App.tsx:47 | the recorded prompt ends with the typed prompt and has the "(Image) " prefix exactly when an image was sent |
| `App.SelectedId` | App.tsx:152 | the id of the first entry whose code is the displayed code, and none when no entry has it |
| `App.SelectingHighlights` | App.tsx:152 | when the displayed code is the code of some history entry, some entry is selected |
| `App.AppState.constructor` | App.tsx:12-18 | no code, not loading, no error, empty history, empty prompt |
| `App.AppState.BeginGenerate` | App.tsx:35-38 | loading is on, the error is cleared and the prompt is recorded before the relay answers |
| `App.AppState.FinishGenerate` | App.tsx:40-63 | on success the code is shown and the new entry goes in front of the history as it is then; on failure only the error text is set; loading ends either way |
| `App.AppState.HandleGenerate` | App.tsx:35-64 | on success the history is the new entry followed by the old history in order, its code is shown and selected; on failure history and code are kept and a non-empty error is set; the prompt is recorded |
| `App.AppState.SelectHistory` | App.tsx:66-68 | the entry's code and prompt are shown again, and an entry of the history is highlighted |
| `App.AppState.ClearHistory` | App.tsx:74-78 | history empty, no code, empty prompt, nothing selected |

## Quirks of the code

- `caches.match` looks in every cache of the origin, in creation order, not
  only in CACHE_NAME. A cache created earlier that holds the same URL
  answers first (`EarlierCacheAnswersFirst`).
- The font branch stores a response of any status, not only a successful
  one (`FontPolicy`).
- `caches.open` runs before `addAll`, so a failed install leaves an empty
  CACHE_NAME cache behind (`InstallAllOrNothing`).
- `CACHE_FILES` is never read, so the icons it lists are never pre-cached
  (`InstallIgnoresCacheFiles`).
- A closing fence is removed only when it is the last three characters, so
  an answer ending in "```" and a newline keeps its fence
  (`TrailingNewlineKeepsFence`).

## Left out

- Asynchrony: every listener is one atomic step that returns its reply
  together with the writes it eventually makes. The model leaves out the
  interleaving of concurrent requests and the fire-and-forget `cache.put`.
  It also leaves out `event.waitUntil`/`respondWith` timing.
- `skipWaiting` and `clients.claim` are boolean flags on `Worker`; the
  browser's install/waiting/active lifecycle is not modelled. In particular
  the model does not say which worker sees a given store: fetch events wait
  while a worker is activating, and a waiting old worker's `caches.match`
  can find the new generation's entries. Both are outside the model.
- `console.log`/`console.error`, response cloning and streams. Of the
  headers, only Content-Type is kept.
- URL handling: cache entries are keyed by the URL string as written.
  Resolution of "./index.html" against the worker's scope is not modelled,
  and neither is the `Vary` header or query-string matching options.
- The `!response` test at service-worker.js:100 is not modelled: `fetch`
  never resolves to a falsy value.
- The `GoogleGenAI` client, the system instruction, the model name and the
  temperature (netlify/functions/generate.js:1-35, 46, 59-66) are left out.
  The model call is a function parameter of `Handle`, and a missing API key
  shows up only as that function's outcome.
- `JSON.parse` of the request and `JSON.stringify` of the response are not
  modelled. The handler receives the parsed fields, or the message the parse
  threw. It returns a structured body. Non-string `prompt`/`imageBase64`
  values, which would make `trim`/`split` throw, are not modelled.
- services/geminiService.ts (the `fetch` to the relay) is not part of this
  model. Its outcome is the `Generation` argument of `FinishGenerate`.
- `localStorage` loading and saving of history (App.tsx:20-33): the
  constructor starts from an empty history.
- `Date.now()`: the two clock readings for the id and the timestamp are
  parameters.
- The sidebar closing on narrow windows (App.tsx:69-71), `viewMode`,
  `showHistory`, all JSX and the components under components/ (including
  InputArea's submit guard) are presentation.

=== FILE: app.dfy ===
/**
 * The application's generation and history handlers: the state slots of the
 * main component as fields of `AppState`, the handlers as methods that update
 * them, and the two pure computations they rely on, the user-facing error
 * text and the lookup of the selected history entry.
 */
module App {

  import opened Wrappers
  import opened JsString

  const GENERIC_ERROR: string := "Something went wrong. Please try again."
  const API_KEY_ERROR: string := "API Configuration Error: Missing API Key."
  const IMAGE_PREFIX: string := "(Image) "

  /** One past generation, newest first in the history list. */
  datatype HistoryItem = HistoryItem(id: string, prompt: string, code: string, timestamp: int)

  /** How the call to the relay settles: the generated code, or an error whose message may be missing or empty. */
  datatype Generation = Generated(code: string) | Failed(message: Option<string>)

  /**
   * The text shown for a failed generation: a dedicated notice when the
   * message mentions API_KEY, the message itself when there is one, a
   * generic request to retry otherwise. Never empty, so the notice always
   * shows.
   */
  function ErrorMessage(message: Option<string>): (r: string)
    ensures r != ""
    ensures Truthy(message) && Includes(message.value, "API_KEY") ==> r == API_KEY_ERROR
    ensures Truthy(message) && !Includes(message.value, "API_KEY") ==> r == message.value
    ensures !Truthy(message) ==> r == GENERIC_ERROR
  {
    if Truthy(message) && Includes(message.value, "API_KEY") then API_KEY_ERROR
    else if Truthy(message) then message.value
    else GENERIC_ERROR
  }

  /**
   * The prompt recorded in history: marked with "(Image) " exactly when an
   * image came with it; the typed prompt always ends it.
   */
  function HistoryPrompt(prompt: string, image: Option<string>): (r: string)
    ensures |r| >= |prompt| && r[|r| - |prompt|..] == prompt
    ensures Truthy(image) <==> |r| == |prompt| + |IMAGE_PREFIX| && StartsWith(r, IMAGE_PREFIX)
    ensures !Truthy(image) ==> r == prompt
  {
    if Truthy(image) then IMAGE_PREFIX + prompt else prompt
  }

  /**
   * `history.find(h => h.code === currentCode)?.id`: the id of the first
   * entry whose code is the displayed code, none when there is no such entry
   * (in particular when no code is displayed).
   */
  function SelectedId(history: seq<HistoryItem>, code: Option<string>): (r: Option<string>)
    ensures r.Some? <==> exists i :: 0 <= i < |history| && Some(history[i].code) == code
    ensures r.Some? ==> exists i :: 0 <= i < |history| && Some(history[i].code) == code && history[i].id == r.value
                                    && forall j :: 0 <= j < i ==> Some(history[j].code) != code
    decreases |history|
  {
    if history == [] then None
    else if Some(history[0].code) == code then Some(history[0].id)
    else
      var r := SelectedId(history[1..], code);
      assert forall i :: 1 <= i < |history| ==> history[i] == history[1..][i - 1];
      r
  }

  /** Picking an entry from the history always leaves some entry highlighted. */
  lemma SelectingHighlights(history: seq<HistoryItem>, k: nat)
    requires k < |history|
    ensures SelectedId(history, Some(history[k].code)).Some?
  {
  }

  /**
   * The React state of the main component that the handlers update:
   * `currentCode`, `loading`, `error`, `history` and `currentPrompt`.
   */
  class AppState {
    var currentCode: Option<string>
    var loading: bool
    var error: Option<string>
    var history: seq<HistoryItem>
    var currentPrompt: string

    /** The initial state, before any history is loaded. */
    constructor ()
      ensures currentCode == None && !loading && error == None && history == [] && currentPrompt == ""
    {
      currentCode, loading, error, history, currentPrompt := None, false, None, [], "";
    }

    /** The id handed to the history sidebar as selected. */
    function Selected(): Option<string>
      reads this
    {
      SelectedId(history, currentCode)
    }

    /** `handleGenerate` up to the call to the relay: loading on, error cleared, prompt recorded. */
    method BeginGenerate(prompt: string)
      modifies this`loading, this`error, this`currentPrompt
      ensures loading && error == None && currentPrompt == prompt
    {
      loading := true;
      error := None;
      currentPrompt := prompt;
    }

    /**
     * `handleGenerate` once the relay has answered. On success the code is
     * displayed and a new entry, stamped with the two clock readings, is put
     * in front of the history as it is now; on failure only the error text
     * is set. Loading ends either way.
     */
    method FinishGenerate(prompt: string, image: Option<string>, outcome: Generation, idTime: nat, timestamp: int)
      modifies this`currentCode, this`loading, this`error, this`history
      ensures !loading
      ensures outcome.Generated? ==>
                && currentCode == Some(outcome.code)
                && history == [HistoryItem(DecimalString(idTime), HistoryPrompt(prompt, image), outcome.code, timestamp)] + old(history)
                && error == old(error)
      ensures outcome.Failed? ==>
                currentCode == old(currentCode) && history == old(history) && error == Some(ErrorMessage(outcome.message))
    {
      match outcome {
        case Generated(code) =>
          currentCode := Some(code);
          var item := HistoryItem(DecimalString(idTime), HistoryPrompt(prompt, image), code, timestamp);
          history := [item] + history;
        case Failed(message) =>
          error := Some(ErrorMessage(message));
      }
      loading := false;
    }

    /**
     * The whole of `handleGenerate` with nothing else happening while the
     * relay works. Success: the new entry heads the unchanged old history,
     * its code is displayed and it is the selected entry. Failure: history
     * and code stay as they were and the error is shown. The prompt box
     * state holds the new prompt either way.
     */
    method HandleGenerate(prompt: string, image: Option<string>, outcome: Generation, idTime: nat, timestamp: int)
      modifies this`currentCode, this`loading, this`error, this`history, this`currentPrompt
      ensures !loading && currentPrompt == prompt
      ensures outcome.Generated? ==>
                && currentCode == Some(outcome.code)
                && |history| == |old(history)| + 1 && history[1..] == old(history)
                && history[0] == HistoryItem(DecimalString(idTime), HistoryPrompt(prompt, image), outcome.code, timestamp)
                && error == None
                && Selected() == Some(DecimalString(idTime))
      ensures outcome.Failed? ==>
                && currentCode == old(currentCode) && history == old(history)
                && error == Some(ErrorMessage(outcome.message)) && error.value != ""
    {
      BeginGenerate(prompt);
      FinishGenerate(prompt, image, outcome, idTime, timestamp);
    }

    /** `handleSelectHistory`: show the entry's code and prompt again. */
    method SelectHistory(item: HistoryItem)
      modifies this`currentCode, this`currentPrompt
      ensures currentCode == Some(item.code) && currentPrompt == item.prompt
      ensures item in history ==> Selected().Some?
    {
      currentCode := Some(item.code);
      currentPrompt := item.prompt;
      if item in history {
        var k :| 0 <= k < |history| && history[k] == item;
        SelectingHighlights(history, k);
      }
    }

    /** `handleClearHistory`: no history, no code, empty prompt, hence nothing selected. */
    method ClearHistory()
      modifies this`history, this`currentCode, this`currentPrompt
      ensures history == [] && currentCode == None && currentPrompt == ""
      ensures Selected() == None
    {
      history := [];
      currentCode := None;
      currentPrompt := "";
    }
  }
}

=== FILE: js_string.dfy ===
/**
 * The handful of ECMAScript string operations the application relies on
 * (`startsWith`, `includes`, `trim`, `split`, the regular-expression class
 * `\s`, and `Number.prototype.toString` on whole numbers), over strings as
 * sequences of characters.
 */
module JsString {

  import opened Wrappers

  /** JavaScript truthiness of an optional string: present and not empty. */
  predicate Truthy(s: Option<string>) {
    s.Some? && s.value != ""
  }

  /** `s.startsWith(p)` */
  predicate StartsWith(s: string, p: string) {
    |p| <= |s| && s[..|p|] == p
  }

  /** `s.endsWith(p)` */
  predicate EndsWith(s: string, p: string) {
    |p| <= |s| && s[|s| - |p|..] == p
  }

  /** `s.includes(p)`: `p` occurs at some position of `s`. */
  predicate Includes(s: string, p: string) {
    exists i :: 0 <= i <= |s| - |p| && StartsWith(s[i..], p)
  }

  /** A prefix is in particular an occurrence. */
  lemma StartsWithIncludes(s: string, p: string)
    requires StartsWith(s, p)
    ensures Includes(s, p)
  {
    assert s[0..] == s;
  }

  /**
   * The characters matched by `\s` and removed by `String.prototype.trim`:
   * ECMAScript's WhiteSpace (tab, vertical tab, form feed, space, no-break
   * space, byte-order mark and the Unicode space separators) and
   * LineTerminator (line feed, carriage return, line and paragraph separator).
   */
  predicate IsSpace(c: char) {
    || c == '\t' || c == '\n' || c == '\U{000B}' || c == '\U{000C}' || c == '\r'
    || c == ' ' || c == '\U{00A0}' || c == '\U{1680}'
    || ('\U{2000}' <= c <= '\U{200A}')
    || c == '\U{2028}' || c == '\U{2029}' || c == '\U{202F}' || c == '\U{205F}'
    || c == '\U{3000}' || c == '\U{FEFF}'
  }

  /** Removes the longest run of `\s` characters at the front of `s` (what `\s*` consumes). */
  function TrimStart(s: string): (r: string)
    ensures |r| <= |s| && r == s[|s| - |r|..]
    ensures r == [] || !IsSpace(r[0])
    ensures forall i :: 0 <= i < |s| - |r| ==> IsSpace(s[i])
    decreases |s|
  {
    if s != [] && IsSpace(s[0]) then TrimStart(s[1..]) else s
  }

  /** Removes the longest run of `\s` characters at the end of `s`. */
  function TrimEnd(s: string): (r: string)
    ensures |r| <= |s| && r == s[..|r|]
    ensures r == [] || !IsSpace(r[|r| - 1])
    ensures forall i :: |r| <= i < |s| ==> IsSpace(s[i])
    decreases |s|
  {
    if s != [] && IsSpace(s[|s| - 1]) then TrimEnd(s[..|s| - 1]) else s
  }

  /** Every character of `s` before position `i` and from position `j` on is white space. */
  predicate OnlySpaceOutside(s: string, i: nat, j: nat)
    requires i <= j <= |s|
  {
    (forall k :: 0 <= k < i ==> IsSpace(s[k])) && (forall k :: j <= k < |s| ==> IsSpace(s[k]))
  }

  /**
   * `s.trim()`: a contiguous piece of `s` that neither starts nor ends with
   * white space, everything cut off being white space; it is empty exactly
   * when `s` is white space only.
   */
  function Trim(s: string): (r: string)
    ensures Includes(s, r)
    ensures exists i, j :: 0 <= i <= j <= |s| && r == s[i..j] && OnlySpaceOutside(s, i, j)
    ensures r == [] || (!IsSpace(r[0]) && !IsSpace(r[|r| - 1]))
    ensures r == [] <==> forall i :: 0 <= i < |s| ==> IsSpace(s[i])
  {
    var t := TrimStart(s);
    var r := TrimEnd(t);
    CutBothEnds(s, t, r);
    r
  }

  /**
   * Cutting white space off the front of `s` (giving `t`) and then off the
   * back of `t` (giving `r`) leaves a piece of `s` with only white space
   * outside it and none at its ends.
   */
  lemma CutBothEnds(s: string, t: string, r: string)
    requires |t| <= |s| && t == s[|s| - |t|..] && forall k :: 0 <= k < |s| - |t| ==> IsSpace(s[k])
    requires t == [] || !IsSpace(t[0])
    requires |r| <= |t| && r == t[..|r|] && forall k :: |r| <= k < |t| ==> IsSpace(t[k])
    requires r == [] || !IsSpace(r[|r| - 1])
    ensures Includes(s, r)
    ensures exists i, j :: 0 <= i <= j <= |s| && r == s[i..j] && OnlySpaceOutside(s, i, j)
    ensures r == [] || (!IsSpace(r[0]) && !IsSpace(r[|r| - 1]))
    ensures r == [] <==> forall i :: 0 <= i < |s| ==> IsSpace(s[i])
  {
    var i := |s| - |t|;
    var j := i + |r|;
    assert r == s[i..j];
    forall k | j <= k < |s|
      ensures IsSpace(s[k])
    {
      assert s[k] == t[k - i];
    }
    assert OnlySpaceOutside(s, i, j);
    assert StartsWith(s[i..], r);
    if r == [] {
      assert t == [];
    } else {
      assert r[0] == t[0] == s[i];
    }
  }

  /** The inverse of `Split`: the parts glued back together with `sep` between them. */
  function Join(parts: seq<string>, sep: char): string
    requires |parts| >= 1
    decreases |parts|
  {
    if |parts| == 1 then parts[0] else parts[0] + [sep] + Join(parts[1..], sep)
  }

  /**
   * `s.split(sep)` for a one-character separator: the pieces between
   * consecutive occurrences of `sep`. There is always at least one piece, no
   * piece contains `sep`, and joining the pieces with `sep` gives `s` back.
   */
  function Split(s: string, sep: char): (r: seq<string>)
    ensures |r| >= 1
    ensures forall k :: 0 <= k < |r| ==> sep !in r[k]
    ensures Join(r, sep) == s
    decreases |s|
  {
    if s == [] then [[]]
    else if s[0] == sep then
      var rest := Split(s[1..], sep);
      assert s == [sep] + s[1..];
      [[]] + rest
    else
      var rest := Split(s[1..], sep);
      var r := [[s[0]] + rest[0]] + rest[1..];
      assert r[1..] == rest[1..];
      assert |rest| > 1 ==> Join(r, sep) == [s[0]] + (rest[0] + [sep] + Join(rest[1..], sep));
      assert s == [s[0]] + s[1..];
      r
  }

  /** The `k`-th piece of `s.split(sep)`, or `undefined` when there are fewer pieces. */
  function Piece(s: string, sep: char, k: nat): (r: Option<string>)
    ensures r.Some? <==> k < |Split(s, sep)|
    ensures r.Some? ==> r.value == Split(s, sep)[k] && sep !in r.value
  {
    var parts := Split(s, sep);
    if k < |parts| then Some(parts[k]) else None
  }

  /** A string without `sep` splits into itself alone. */
  lemma {:induction false} SplitNoSeparator(a: string, sep: char)
    requires sep !in a
    ensures Split(a, sep) == [a]
  {
    if a != [] {
      SplitNoSeparator(a[1..], sep);
      assert [a[0]] + a[1..] == a;
    }
  }

  /** The first occurrence of `sep` ends the first piece. */
  lemma {:induction false} SplitAtFirst(a: string, b: string, sep: char)
    requires sep !in a
    ensures Split(a + [sep] + b, sep) == [a] + Split(b, sep)
    decreases |a|
  {
    var s := a + [sep] + b;
    if a == [] {
      assert s[1..] == b;
    } else {
      assert s[1..] == a[1..] + [sep] + b;
      SplitAtFirst(a[1..], b, sep);
      assert [a[0]] + a[1..] == a;
    }
  }

  /** Splitting undoes joining when no part contains the separator. */
  lemma {:induction false} SplitJoin(parts: seq<string>, sep: char)
    requires |parts| >= 1
    requires forall k :: 0 <= k < |parts| ==> sep !in parts[k]
    ensures Split(Join(parts, sep), sep) == parts
    decreases |parts|
  {
    if |parts| == 1 {
      SplitNoSeparator(parts[0], sep);
    } else {
      SplitJoin(parts[1..], sep);
      SplitAtFirst(parts[0], Join(parts[1..], sep), sep);
      assert parts == [parts[0]] + parts[1..];
    }
  }

  /** `s.split(sep)` has a second piece exactly when `sep` occurs in `s`. */
  lemma SplitSingle(s: string, sep: char)
    ensures |Split(s, sep)| == 1 <==> sep !in s
  {
    if sep !in s {
      SplitNoSeparator(s, sep);
    }
  }

  /**
   * The lower case of an ASCII letter. A case-insensitive regular
   * expression matches an ASCII letter by exactly its two cases: no other
   * character folds onto it.
   */
  function LowerAscii(c: char): (r: char)
    ensures 'a' <= r <= 'z' <==> ('a' <= c <= 'z' || 'A' <= c <= 'Z')
    ensures 'A' <= c <= 'Z' ==> r as int == c as int + 32
    ensures !('A' <= c <= 'Z') ==> r == c
  {
    if 'A' <= c <= 'Z' then (c as int + 32) as char else c
  }

  /** The decimal digit for `d`. */
  function Digit(d: nat): (c: char)
    requires d < 10
    ensures '0' <= c <= '9' && (c as int) - ('0' as int) == d
  {
    (('0' as int) + d) as char
  }

  /** `n.toString()` for a whole number: its decimal digits, without leading zeros. */
  function DecimalString(n: nat): (r: string)
    ensures |r| >= 1
    ensures forall i :: 0 <= i < |r| ==> '0' <= r[i] <= '9'
    ensures r[0] == '0' ==> n == 0 && r == "0"
    decreases n
  {
    if n < 10 then [Digit(n)] else DecimalString(n / 10) + [Digit(n % 10)]
  }

  /** The number a string of decimal digits denotes. */
  function DecimalValue(s: string): nat
    requires forall i :: 0 <= i < |s| ==> '0' <= s[i] <= '9'
    decreases |s|
  {
    if s == [] then 0 else 10 * DecimalValue(s[..|s| - 1]) + ((s[|s| - 1] as int) - ('0' as int))
  }

  /** Reading the digits back gives the number: distinct numbers have distinct strings. */
  lemma {:induction false} DecimalRoundTrip(n: nat)
    ensures DecimalValue(DecimalString(n)) == n
    decreases n
  {
    if n >= 10 {
      DecimalRoundTrip(n / 10);
      var r := DecimalString(n);
      assert r[..|r| - 1] == DecimalString(n / 10);
    }
  }
}

=== FILE: relay.dfy ===
/**
 * The serverless relay between the browser and the hosted model: the method
 * gate, the split of an uploaded image's data URL, the construction of the
 * prompt parts, the removal of markdown code fences around the model's
 * answer, and the success and error envelopes. The model call itself is a
 * function the handler receives.
 */
module Relay {

  import opened Wrappers
  import opened JsString

  const DEFAULT_IMAGE_PROMPT: string := "Analyze this image and create an interactive simulation."
  const FALLBACK_ERROR: string := "Something went wrong"
  const FENCE: string := "```"

  /** The fields of the JSON request body; a missing field is None. */
  datatype RequestBody = RequestBody(prompt: Option<string>, imageBase64: Option<string>)

  /** The request body once `JSON.parse` has run: the fields, or the message of the error it threw. */
  datatype ParsedBody = Parsed(fields: RequestBody) | Unparsable(message: Option<string>)

  datatype Event = Event(httpMethod: string, body: ParsedBody)

  /** One part of the model's input: an inline image or a piece of text (possibly `undefined`). */
  datatype Part = InlineData(mimeType: Option<string>, data: Option<string>) | Text(text: Option<string>)

  /** How the model call settles: an answer whose `text` may be missing, or an error whose `message` may be missing. */
  datatype ModelOutcome = Answered(text: Option<string>) | Threw(message: Option<string>)

  /** The response body: plain text, `{ code }` or `{ error }` as JSON. */
  datatype Body = PlainText(text: string) | CodeJson(code: string) | ErrorJson(error: string)

  datatype HttpResponse = HttpResponse(statusCode: int, contentType: Option<string>, body: Body)

  // ---------------------------------------------------------------------------
  // Data URL

  /**
   * The image part built from a data URL: the MIME type is the second
   * `:`-piece of the first `;`-piece, the payload the second `,`-piece;
   * either is `undefined` when the separator is missing.
   */
  function ImagePart(image: string): (r: Part)
    ensures r.InlineData?
    ensures r.data.Some? <==> ',' in image
    ensures r.data.Some? ==> ',' !in r.data.value
    ensures r.mimeType.Some? <==> ':' in Split(image, ';')[0]
    ensures r.mimeType.Some? ==> ':' !in r.mimeType.value && ';' !in r.mimeType.value
  {
    SplitSingle(image, ',');
    SplitSingle(Split(image, ';')[0], ':');
    var header := Split(image, ';')[0];
    var mime := Piece(header, ':', 1);
    assert mime.Some? ==> mime.value in Split(header, ':');
    SplitPiecesLackSeparator(header, ';', ':');
    InlineData(mime, Piece(image, ',', 1))
  }

  /** Pieces of a string that lacks some character lack it too. */
  lemma SplitPiecesLackSeparator(s: string, c: char, sep: char)
    requires c !in s
    ensures forall k :: 0 <= k < |Split(s, sep)| ==> c !in Split(s, sep)[k]
  {
    var parts := Split(s, sep);
    forall k | 0 <= k < |parts| ensures c !in parts[k] {
      JoinContainsParts(parts, sep, k);
    }
  }

  lemma {:induction false} JoinContainsParts(parts: seq<string>, sep: char, k: nat)
    requires k < |parts|
    ensures forall c :: c in parts[k] ==> c in Join(parts, sep)
    decreases |parts|
  {
    if |parts| > 1 && k > 0 {
      JoinContainsParts(parts[1..], sep, k - 1);
    }
  }

  /**
   * For a MIME type without `:`, `;` or `,` and a payload without `,`, the
   * data URL "data:<mime>;base64,<payload>" splits back into exactly that
   * MIME type and payload.
   */
  lemma DataUrlRoundTrip(mime: string, payload: string)
    requires ':' !in mime && ';' !in mime && ',' !in mime && ',' !in payload
    ensures ImagePart("data:" + mime + ";base64," + payload) == InlineData(Some(mime), Some(payload))
  {
    DataUrlPayload(mime, payload);
    DataUrlMime(mime, payload);
  }

  lemma DataUrlPayload(mime: string, payload: string)
    requires ',' !in mime && ',' !in payload
    ensures Piece("data:" + mime + ";base64," + payload, ',', 1) == Some(payload)
  {
    var url := "data:" + mime + ";base64," + payload;
    var beforeComma := "data:" + mime + ";base64";
    assert url == beforeComma + [','] + payload;
    SplitAtFirst(beforeComma, payload, ',');
    SplitNoSeparator(payload, ',');
  }

  lemma DataUrlMime(mime: string, payload: string)
    requires ':' !in mime && ';' !in mime
    ensures Piece(Split("data:" + mime + ";base64," + payload, ';')[0], ':', 1) == Some(mime)
  {
    var url := "data:" + mime + ";base64," + payload;
    var header := "data:" + mime;
    assert url == header + [';'] + ("base64," + payload);
    SplitAtFirst(header, "base64," + payload, ';');
    assert header == "data" + [':'] + mime;
    SplitAtFirst("data", mime, ':');
    SplitNoSeparator(mime, ':');
  }

  // ---------------------------------------------------------------------------
  // Prompt parts

  /** `prompt?.trim() || DEFAULT_IMAGE_PROMPT`: never empty, never padded with white space. */
  function ImagePrompt(prompt: Option<string>): (r: string)
    ensures r != []
    ensures prompt.Some? && Trim(prompt.value) != "" ==> r == Trim(prompt.value)
    ensures (prompt.None? || forall i :: 0 <= i < |prompt.value| ==> IsSpace(prompt.value[i])) ==> r == DEFAULT_IMAGE_PROMPT
  {
    var trimmed := if prompt.Some? then Trim(prompt.value) else "";
    if trimmed != "" then trimmed else DEFAULT_IMAGE_PROMPT
  }

  /**
   * The model's input. With a non-empty image: the image part, then the
   * trimmed prompt (or the default request). Without one, or with an empty
   * string: the prompt alone, untrimmed, `undefined` included.
   */
  function Parts(body: RequestBody): (r: seq<Part>)
    ensures Truthy(body.imageBase64) ==> r == [ImagePart(body.imageBase64.value), Text(Some(ImagePrompt(body.prompt)))]
    ensures !Truthy(body.imageBase64) ==> r == [Text(body.prompt)]
    ensures forall k :: 0 <= k < |r| && r[k].Text? && Truthy(body.imageBase64) ==> r[k].text.Some? && r[k].text.value != ""
  {
    if Truthy(body.imageBase64) then
      [ImagePart(body.imageBase64.value), Text(Some(ImagePrompt(body.prompt)))]
    else
      [Text(body.prompt)]
  }

  // ---------------------------------------------------------------------------
  // Fence stripping

  /** `^```html` compared case-insensitively on "html". */
  predicate HasHtmlFence(s: string) {
    |s| >= 7 && s[..3] == FENCE
    && LowerAscii(s[3]) == 'h' && LowerAscii(s[4]) == 't' && LowerAscii(s[5]) == 'm' && LowerAscii(s[6]) == 'l'
  }

  /**
   * `replace(/^```html\s*\/i, '')`: the result is a suffix of the input,
   * shorter exactly when the input opens with the fence; then what was
   * removed after the seven fence characters is white space, and what is
   * left does not start with any.
   */
  function DropHtmlFence(s: string): (r: string)
    ensures |r| <= |s| && r == s[|s| - |r|..]
    ensures |r| < |s| <==> HasHtmlFence(s)
    ensures |r| < |s| ==> |r| <= |s| - 7 && (forall i :: 7 <= i < |s| - |r| ==> IsSpace(s[i]))
                          && (r == [] || !IsSpace(r[0]))
  {
    if HasHtmlFence(s) then TrimStart(s[7..]) else s
  }

  /**
   * `replace(/^```\s*\/i, '')`: the result is a suffix of the input,
   * shorter exactly when the input opens with "```"; then what was removed
   * after the fence is white space, and what is left does not start with any.
   */
  function DropOpeningFence(s: string): (r: string)
    ensures |r| <= |s| && r == s[|s| - |r|..]
    ensures |r| < |s| <==> StartsWith(s, FENCE)
    ensures |r| < |s| ==> |r| <= |s| - 3 && (forall i :: 3 <= i < |s| - |r| ==> IsSpace(s[i]))
                          && (r == [] || !IsSpace(r[0]))
  {
    if StartsWith(s, FENCE) then TrimStart(s[3..]) else s
  }

  /**
   * `replace(/```$/i, '')`: the result is a prefix of the input, and what
   * is cut off is either nothing or a closing fence that ended the input.
   */
  function DropClosingFence(s: string): (r: string)
    ensures |r| <= |s| && r == s[..|r|]
    ensures |r| == |s| - 3 <==> EndsWith(s, FENCE)
    ensures s[|r|..] == FENCE || s[|r|..] == []
  {
    if EndsWith(s, FENCE) then s[..|s| - 3] else s
  }

  /**
   * The three replacements in order. The result is a piece of the input,
   * so never longer; a string that neither starts nor ends with a fence is
   * returned as it is.
   */
  function StripFences(s: string): (r: string)
    ensures |r| <= |s|
    ensures !StartsWith(s, FENCE) && !EndsWith(s, FENCE) ==> r == s
  {
    DropClosingFence(DropOpeningFence(DropHtmlFence(s)))
  }

  /** The stripped answer is a contiguous piece of the model's text. */
  lemma StripFencesIsPiece(s: string)
    ensures Includes(s, StripFences(s))
  {
    var a := DropHtmlFence(s);
    var b := DropOpeningFence(a);
    DropHtmlFenceIsPiece(s);
    DropOpeningFenceIsPiece(a);
    StartsWithIncludes(b, DropClosingFence(b));
    IncludesTransitive(s, a, b);
    IncludesTransitive(s, b, DropClosingFence(b));
  }

  lemma DropHtmlFenceIsPiece(s: string)
    ensures Includes(s, DropHtmlFence(s))
  {
    var a := DropHtmlFence(s);
    if HasHtmlFence(s) {
      assert StartsWith(s[|s| - |a|..], a);
    } else {
      StartsWithIncludes(s, a);
    }
  }

  lemma DropOpeningFenceIsPiece(s: string)
    ensures Includes(s, DropOpeningFence(s))
  {
    var a := DropOpeningFence(s);
    if StartsWith(s, FENCE) {
      assert StartsWith(s[|s| - |a|..], a);
    } else {
      StartsWithIncludes(s, a);
    }
  }

  lemma IncludesTransitive(s: string, t: string, u: string)
    requires Includes(s, t) && Includes(t, u)
    ensures Includes(s, u)
  {
    var i :| 0 <= i <= |s| - |t| && StartsWith(s[i..], t);
    var j :| 0 <= j <= |t| - |u| && StartsWith(t[j..], u);
    forall k | 0 <= k < |u|
      ensures s[i + j + k] == u[k]
    {
      assert u[k] == t[j..][k] == t[j + k];
      assert t[j + k] == s[i..][j + k] == s[i + j + k];
    }
    assert s[i + j..][..|u|] == u;
  }

  /** A body that the stripping cannot eat into: empty, or starting with neither white space nor a backtick. */
  predicate CleanStart(body: string) {
    body == [] || (!IsSpace(body[0]) && body[0] != '`')
  }

  /**
   * "```" + tag + white space + body + "```", for any capitalisation `tag`
   * of "html", strips to exactly the body.
   */
  lemma StripHtmlFenced(tag: string, ws: string, body: string)
    requires |tag| == 4 && LowerAscii(tag[0]) == 'h' && LowerAscii(tag[1]) == 't'
             && LowerAscii(tag[2]) == 'm' && LowerAscii(tag[3]) == 'l'
    requires forall i :: 0 <= i < |ws| ==> IsSpace(ws[i])
    requires CleanStart(body)
    ensures StripFences(FENCE + tag + ws + body + FENCE) == body
  {
    var s := FENCE + tag + ws + body + FENCE;
    assert s[..3] == FENCE && s[3..7] == tag;
    assert HasHtmlFence(s);
    assert s[7..] == ws + (body + FENCE);
    TrimStartSkips(ws, body + FENCE);
    assert DropHtmlFence(s) == body + FENCE;
    ClosingFenceOnly(body);
  }

  /** Once the opening fence is gone, the remaining two steps remove just the closing one. */
  lemma ClosingFenceOnly(body: string)
    requires CleanStart(body)
    ensures DropClosingFence(DropOpeningFence(body + FENCE)) == body
  {
    if body == [] {
      assert DropOpeningFence(FENCE) == [];
    } else {
      assert (body + FENCE)[0] == body[0];
      assert !StartsWith(body + FENCE, FENCE);
      assert DropOpeningFence(body + FENCE) == body + FENCE;
      assert (body + FENCE)[..|body|] == body;
    }
  }

  /** "```" + white space (at least one character) + body + "```" strips to exactly the body. */
  lemma StripPlainFenced(ws: string, body: string)
    requires |ws| >= 1 && forall i :: 0 <= i < |ws| ==> IsSpace(ws[i])
    requires CleanStart(body)
    ensures StripFences(FENCE + ws + body + FENCE) == body
  {
    var s := FENCE + ws + body + FENCE;
    assert s[3] == ws[0];
    assert !HasHtmlFence(s);
    assert s[..3] == FENCE;
    assert s[3..] == ws + (body + FENCE);
    TrimStartSkips(ws, body + FENCE);
    assert DropHtmlFence(s) == s;
    assert DropOpeningFence(s) == body + FENCE;
    assert DropClosingFence(body + FENCE) == body by {
      assert (body + FENCE)[..|body|] == body;
    }
  }

  /** `\s*` consumes exactly a run of white space followed by a non-space. */
  lemma {:induction false} TrimStartSkips(ws: string, rest: string)
    requires forall i :: 0 <= i < |ws| ==> IsSpace(ws[i])
    requires rest == [] || !IsSpace(rest[0])
    ensures TrimStart(ws + rest) == rest
    decreases |ws|
  {
    if ws != [] {
      assert (ws + rest)[1..] == ws[1..] + rest;
      TrimStartSkips(ws[1..], rest);
    } else {
      assert ws + rest == rest;
    }
  }

  /** A closing fence followed by anything, even a newline, is left in place. */
  lemma TrailingNewlineKeepsFence(body: string)
    requires CleanStart(body) && body != []
    ensures StripFences(body + FENCE + "\n") == body + FENCE + "\n"
  {
    var s := body + FENCE + "\n";
    assert s[0] == body[0];
    assert !StartsWith(s, FENCE);
    assert !HasHtmlFence(s);
    assert s[|s| - 1] == '\n';
    assert !EndsWith(s, FENCE);
  }

  // ---------------------------------------------------------------------------
  // The handler

  function ErrorResponse(message: Option<string>): (r: HttpResponse)
    ensures r.statusCode == 500 && r.body.ErrorJson? && r.body.error != ""
    ensures Truthy(message) ==> r.body.error == message.value
    ensures !Truthy(message) ==> r.body.error == FALLBACK_ERROR
  {
    HttpResponse(500, None, ErrorJson(if Truthy(message) then message.value else FALLBACK_ERROR))
  }

  /**
   * The relay's handler. Anything but POST gets 405 "Method Not Allowed"
   * before the body is read or the model called. Otherwise a parse error or
   * a model error gets 500 with the error's message (or the fallback), and an
   * answer gets 200 with its text, fences stripped, as `{ code }`.
   */
  function Handle(event: Event, model: seq<Part> -> ModelOutcome): (r: HttpResponse)
    ensures r.statusCode == 405 <==> event.httpMethod != "POST"
    ensures r.statusCode == 405 ==> r == HttpResponse(405, None, PlainText("Method Not Allowed"))
    ensures r.statusCode in {200, 405, 500}
    ensures r.statusCode == 200 <==> event.httpMethod == "POST" && event.body.Parsed? && model(Parts(event.body.fields)).Answered?
    ensures r.statusCode == 200 ==> r.contentType == Some("application/json") && r.body.CodeJson?
    ensures r.statusCode == 200 ==>
              r.body.code == StripFences(model(Parts(event.body.fields)).text.GetOr(""))
              && |r.body.code| <= |model(Parts(event.body.fields)).text.GetOr("")|
    ensures r.statusCode == 500 ==> r.body.ErrorJson? && r.body.error != ""
    ensures event.httpMethod == "POST" && event.body.Unparsable? ==> r == ErrorResponse(event.body.message)
    ensures event.httpMethod == "POST" && event.body.Parsed? && model(Parts(event.body.fields)).Threw? ==>
              r == ErrorResponse(model(Parts(event.body.fields)).message)
  {
    if event.httpMethod != "POST" then
      HttpResponse(405, None, PlainText("Method Not Allowed"))
    else
      match event.body
      case Unparsable(message) => ErrorResponse(message)
      case Parsed(fields) =>
        match model(Parts(fields))
        case Threw(message) => ErrorResponse(message)
        case Answered(text) =>
          HttpResponse(200, Some("application/json"), CodeJson(StripFences(text.GetOr(""))))
  }

  /** The method gate runs first: for anything but POST the model is never consulted. */
  lemma NonPostIgnoresModel(event: Event, m1: seq<Part> -> ModelOutcome, m2: seq<Part> -> ModelOutcome)
    requires event.httpMethod != "POST"
    ensures Handle(event, m1) == Handle(event, m2)
  {
  }

  /** An answer without text becomes `{ code: "" }`. */
  lemma MissingTextGivesEmptyCode(fields: RequestBody, model: seq<Part> -> ModelOutcome)
    requires model(Parts(fields)) == Answered(None)
    ensures Handle(Event("POST", Parsed(fields)), model) == HttpResponse(200, Some("application/json"), CodeJson(""))
  {
  }

  /** A fenced HTML answer reaches the browser without its fences. */
  lemma FencedAnswerUnwrapped(fields: RequestBody, model: seq<Part> -> ModelOutcome, ws: string, html: string)
    requires forall i :: 0 <= i < |ws| ==> IsSpace(ws[i])
    requires CleanStart(html)
    requires model(Parts(fields)) == Answered(Some(FENCE + "html" + ws + html + FENCE))
    ensures Handle(Event("POST", Parsed(fields)), model).body == CodeJson(html)
  {
    StripHtmlFenced("html", ws, html);
  }

  /**
   * A model error reaches the browser as a 500 carrying its message, and as
   * the fallback text when the message is missing or empty.
   */
  lemma ThrownErrorReported(fields: RequestBody, model: seq<Part> -> ModelOutcome, message: Option<string>)
    requires model(Parts(fields)) == Threw(message)
    ensures var r := Handle(Event("POST", Parsed(fields)), model);
      && r.statusCode == 500 && r.contentType == None
      && r.body == ErrorJson(if Truthy(message) then message.value else FALLBACK_ERROR)
  {
  }
}

=== FILE: service_worker.dfy ===
/**
 * The offline cache layer of the application's service worker: the routing of
 * intercepted requests, the network-first policy for font hosts, the
 * cache-first policy with background refresh for everything else, install
 * (mandatory and best-effort pre-caching), activate (deletion of every other
 * cache) and the SKIP_WAITING message.
 *
 * The browser's CacheStorage is a `Store`: cache names in creation order and,
 * per name, a map from request URL to stored response. Each handler is one
 * atomic step from a store, a request and the network's answer to a reply and
 * the store once its writes have landed. The pure functions below say what a
 * step does; class `Worker` performs the steps on its own fields and is proved
 * to agree with them.
 */
module ServiceWorker {

  import opened Wrappers
  import opened JsString

  type Url = string
  type CacheName = string

  /** The version label of the current cache generation. */
  const CACHE_NAME: CacheName := "ronins-maths-v4.0"

  const INDEX_URL: Url := "./index.html"
  const MANIFEST_URL: Url := "./manifest.json"
  const FONT_URL: Url := "https://fonts.googleapis.com/css2?family=Space+Grotesk:wght@400;500;600;700&family=JetBrains+Mono:wght@400;500&display=swap"

  /** The asset list the worker declares; install never reads it. */
  const CACHE_FILES: seq<Url> := [INDEX_URL, MANIFEST_URL, "./icon-192.png", "./icon-512.png", FONT_URL]

  /** What install pre-caches all-or-nothing, and what it tries afterwards. */
  const MANDATORY: seq<Url> := [INDEX_URL, MANIFEST_URL]
  const BEST_EFFORT: seq<Url> := [FONT_URL]

  /** A response as far as the cache layer cares: status, Content-Type and body. */
  datatype Response = Response(status: int, contentType: Option<string>, body: string)

  const OFFLINE_HTML: string :=
    "<html><body style=\"background:#080d1a;color:#64748b;font-family:sans-serif;display:flex;"
    + "align-items:center;justify-content:center;height:100vh;margin:0;flex-direction:column\">"
    + "<h2 style=\"color:#a5b4fc\">\U{1F4F6} You're offline</h2>"
    + "<p>Open the app once online to cache it for offline use.</p></body></html>"

  /** The page synthesised when nothing is cached and the network is down (`new Response` defaults to status 200). */
  const OFFLINE_PAGE: Response := Response(200, Some("text/html"), OFFLINE_HTML)

  datatype Request = Request(httpMethod: string, url: Url)

  /** What `fetch` settles to: a response (whatever its status) or a rejection. */
  datatype NetResult = Fetched(response: Response) | NetworkFailure

  datatype Route = Bypass | NetworkFirst | CacheFirst

  /**
   * What the page receives: the browser's own fetch when the worker does not
   * call `respondWith`, a response, or a network error when the worker
   * answers with `undefined`.
   */
  datatype Reply = NotIntercepted | Respond(response: Response) | NetworkError

  type Cache = map<Url, Response>

  datatype Store = Store(names: seq<CacheName>, caches: map<CacheName, Cache>)

  datatype FetchStep = FetchStep(reply: Reply, store: Store)

  datatype InstallStep = InstallStep(completed: bool, store: Store)

  ghost predicate Distinct(names: seq<CacheName>) {
    forall i, j :: 0 <= i < j < |names| ==> names[i] != names[j]
  }

  /** Every cache appears exactly once in the creation order. */
  ghost predicate WellFormed(s: Store) {
    Distinct(s.names) && forall n :: n in s.caches <==> n in s.names
  }

  // ---------------------------------------------------------------------------
  // CacheStorage and Cache primitives

  /** `names` without the members of `gone`, order kept. */
  function Without(names: seq<CacheName>, gone: set<CacheName>): (r: seq<CacheName>)
    ensures forall n :: n in r <==> n in names && n !in gone
    ensures Distinct(names) ==> Distinct(r)
    decreases |names|
  {
    if names == [] then []
    else if names[0] in gone then Without(names[1..], gone)
    else
      var rest := Without(names[1..], gone);
      assert Distinct(names) ==> names[0] !in names[1..];
      [names[0]] + rest
  }

  /** `caches.open(name)`: the cache is created, empty and last in order, when absent. */
  function Open(s: Store, name: CacheName): (r: Store)
    ensures WellFormed(s) ==> WellFormed(r)
    ensures r.caches.Keys == s.caches.Keys + {name}
    ensures forall n :: n in s.caches ==> r.caches[n] == s.caches[n]
    ensures name !in s.caches ==> r.caches[name] == map[]
    ensures r.names == if name in s.caches then s.names else s.names + [name]
  {
    if name in s.caches then s else Store(s.names + [name], s.caches[name := map[]])
  }

  /** `caches.open(name)` then `cache.put(url, resp)`: that one entry is created or replaced. */
  function Put(s: Store, name: CacheName, url: Url, resp: Response): (r: Store)
    ensures WellFormed(s) ==> WellFormed(r)
    ensures r.caches.Keys == s.caches.Keys + {name}
    ensures forall n :: n in s.caches && n != name ==> r.caches[n] == s.caches[n]
    ensures r.caches[name] == Open(s, name).caches[name][url := resp]
    ensures r.names == Open(s, name).names
  {
    var o := Open(s, name);
    Store(o.names, o.caches[name := o.caches[name][url := resp]])
  }

  /**
   * `caches.delete(name)`: the cache leaves the creation order, the others
   * keeping theirs; deleting an absent cache changes nothing.
   */
  function Delete(s: Store, name: CacheName): (r: Store)
    ensures WellFormed(s) ==> WellFormed(r)
    ensures r.caches == s.caches - {name}
    ensures WellFormed(s) && name in s.caches ==> CutOut(s.names, name, r.names)
    ensures name !in s.caches && WellFormed(s) ==> r == s
  {
    var r := Store(Without(s.names, {name}), s.caches - {name});
    if name in s.names then WithoutOne(s.names, name); r
    else WithoutNothing(s.names, {name}); r
  }

  /** `after` is `names` with the one occurrence of `name` cut out, the rest in order. */
  ghost predicate CutOut(names: seq<CacheName>, name: CacheName, after: seq<CacheName>) {
    exists i :: 0 <= i < |names| && names[i] == name && after == names[..i] + names[i + 1..]
  }

  /** Removing a name that occurs once cuts it out at its position. */
  lemma WithoutOne(names: seq<CacheName>, name: CacheName)
    requires name in names
    ensures Distinct(names) ==> CutOut(names, name, Without(names, {name}))
  {
    if Distinct(names) {
      var i := CutAt(names, name);
    }
  }

  lemma {:induction false} CutAt(names: seq<CacheName>, name: CacheName) returns (i: nat)
    requires Distinct(names) && name in names
    ensures i < |names| && names[i] == name && Without(names, {name}) == names[..i] + names[i + 1..]
    decreases |names|
  {
    DistinctTail(names);
    var tail := names[1..];
    if names[0] == name {
      assert Without(names, {name}) == Without(tail, {name});
      WithoutNothing(tail, {name});
      i := 0;
    } else {
      assert Without(names, {name}) == [names[0]] + Without(tail, {name});
      var j := CutAt(tail, name);
      i := j + 1;
      ConsCut(names, j);
    }
  }

  lemma ConsCut(names: seq<CacheName>, j: nat)
    requires j + 1 < |names|
    ensures [names[0]] + (names[1..][..j] + names[1..][j + 1..]) == names[..j + 1] + names[j + 2..]
  {
    assert names[..j + 1] == [names[0]] + names[1..][..j];
    assert names[j + 2..] == names[1..][j + 1..];
  }

  lemma DistinctTail(names: seq<CacheName>)
    requires Distinct(names) && names != []
    ensures Distinct(names[1..]) && names[0] !in names[1..]
  {
    assert forall i, j :: 0 <= i < j < |names[1..]| ==> names[1..][i] == names[i + 1] && names[1..][j] == names[j + 1];
  }

  lemma {:induction false} WithoutNothing(names: seq<CacheName>, gone: set<CacheName>)
    requires forall n :: n in gone ==> n !in names
    ensures Without(names, gone) == names
    decreases |names|
  {
    if names != [] {
      WithoutNothing(names[1..], gone);
      assert [names[0]] + names[1..] == names;
    }
  }

  predicate Holds(caches: map<CacheName, Cache>, name: CacheName, url: Url) {
    name in caches && url in caches[name]
  }

  /**
   * The search of `caches.match(url)` over `names`: the entry of the first
   * cache, in creation order, that holds `url`.
   */
  function MatchIn(names: seq<CacheName>, caches: map<CacheName, Cache>, url: Url): (r: Option<Response>)
    ensures r.Some? <==> exists i :: 0 <= i < |names| && Holds(caches, names[i], url)
    ensures r.Some? ==> exists i :: 0 <= i < |names| && Holds(caches, names[i], url)
                                    && r.value == caches[names[i]][url]
                                    && forall j :: 0 <= j < i ==> !Holds(caches, names[j], url)
    decreases |names|
  {
    if names == [] then None
    else if Holds(caches, names[0], url) then Some(caches[names[0]][url])
    else
      var r := MatchIn(names[1..], caches, url);
      assert forall i :: 1 <= i < |names| ==> names[i] == names[1..][i - 1];
      r
  }

  /** `caches.match(url)`: searches every cache of the store, not only CACHE_NAME. */
  function Match(s: Store, url: Url): (r: Option<Response>)
    requires WellFormed(s)
    ensures r.Some? <==> exists n :: n in s.caches && url in s.caches[n]
    ensures r.Some? ==> exists n :: n in s.caches && url in s.caches[n] && s.caches[n][url] == r.value
  {
    var r := MatchIn(s.names, s.caches, url);
    assert forall n :: Holds(s.caches, n, url) ==> exists i :: 0 <= i < |s.names| && s.names[i] == n;
    r
  }

  /** `cache.put` rejects a partial response (status 206); nothing is written then. */
  predicate PutAccepts(resp: Response) {
    resp.status != 206
  }

  /** `cache.addAll` rejects a network error, a status outside 200-299, and 206. */
  predicate AddAllAccepts(net: NetResult) {
    net.Fetched? && 200 <= net.response.status <= 299 && net.response.status != 206
  }

  /** Puts the response fetched for each URL, in order, into the already opened cache `name`. */
  function PutEach(s: Store, name: CacheName, urls: seq<Url>, net: Url -> NetResult): (r: Store)
    requires name in s.caches
    requires forall u | u in urls :: AddAllAccepts(net(u))
    ensures r.names == s.names && r.caches.Keys == s.caches.Keys
    ensures forall n :: n in s.caches && n != name ==> r.caches[n] == s.caches[n]
    ensures forall u | u in urls :: AddAllAccepts(net(u)) && u in r.caches[name] && r.caches[name][u] == net(u).response
    ensures forall u :: u !in urls ==> (u in r.caches[name] <==> u in s.caches[name])
    ensures forall u :: u !in urls && u in r.caches[name] ==> r.caches[name][u] == s.caches[name][u]
    decreases |urls|
  {
    if urls == [] then s
    else
      var last := urls[|urls| - 1];
      assert last in urls && AddAllAccepts(net(last));
      assert forall u | u in urls[..|urls| - 1] :: u in urls;
      var before := PutEach(s, name, urls[..|urls| - 1], net);
      assert forall u :: u !in urls ==> u != last && u !in urls[..|urls| - 1];
      Store(before.names, before.caches[name := before.caches[name][last := net(last).response]])
  }

  /**
   * `cache.addAll(urls)` on the cache `name` (already opened): every URL is
   * fetched, and either every response is stored or, when one is refused,
   * none is.
   */
  function AddAll(s: Store, name: CacheName, urls: seq<Url>, net: Url -> NetResult): (r: Option<Store>)
    requires name in s.caches
    ensures r.Some? <==> forall u | u in urls :: AddAllAccepts(net(u))
    ensures r.Some? ==> WellFormed(s) ==> WellFormed(r.value)
    ensures r.Some? ==> r.value.caches.Keys == s.caches.Keys && r.value.names == s.names
    ensures r.Some? ==> forall n :: n in s.caches && n != name ==> r.value.caches[n] == s.caches[n]
    ensures r.Some? ==> forall u | u in urls :: AddAllAccepts(net(u)) && u in r.value.caches[name] && r.value.caches[name][u] == net(u).response
    ensures r.Some? ==> forall u :: u !in urls ==> (u in r.value.caches[name] <==> u in s.caches[name])
    ensures r.Some? ==> forall u :: u !in urls && u in s.caches[name] ==> r.value.caches[name][u] == s.caches[name][u]
  {
    if forall u | u in urls :: AddAllAccepts(net(u)) then Some(PutEach(s, name, urls, net)) else None
  }

  // ---------------------------------------------------------------------------
  // The fetch handler

  /**
   * The routing of an intercepted request. Non-GET requests and any URL
   * containing "extension" are left alone (the "chrome-extension" prefix
   * test is subsumed by it), so a font URL containing "extension" is
   * bypassed too; the two font hosts go network-first; everything else
   * cache-first.
   */
  function Classify(req: Request): (r: Route)
    ensures r == Bypass <==> req.httpMethod != "GET" || Includes(req.url, "extension")
    ensures r == NetworkFirst <==>
              req.httpMethod == "GET" && !Includes(req.url, "extension")
              && (Includes(req.url, "fonts.googleapis.com") || Includes(req.url, "fonts.gstatic.com"))
  {
    if req.httpMethod != "GET" then Bypass
    else if StartsWith(req.url, "chrome-extension") || Includes(req.url, "extension") then
      ChromeExtensionIncludesExtension(req.url);
      Bypass
    else if Includes(req.url, "fonts.googleapis.com") || Includes(req.url, "fonts.gstatic.com") then NetworkFirst
    else CacheFirst
  }

  /** Every "chrome-extension..." URL already contains "extension". */
  lemma ChromeExtensionIncludesExtension(url: Url)
    ensures StartsWith(url, "chrome-extension") ==> Includes(url, "extension")
  {
    if StartsWith(url, "chrome-extension") {
      assert url[7..][..9] == url[..16][7..] == "extension";
      assert StartsWith(url[7..], "extension");
    }
  }

  /**
   * Network first for fonts: a response of any status is returned and written
   * into CACHE_NAME (only a 206 is refused by `cache.put`, after the cache has
   * been opened); on a network failure the answer is whatever `caches.match`
   * finds, and a miss reaches the page as a network error.
   */
  function FontPolicy(s: Store, url: Url, net: NetResult): (r: FetchStep)
    requires WellFormed(s)
    ensures WellFormed(r.store)
    ensures net.Fetched? ==> r.reply == Respond(net.response)
    ensures net.Fetched? && PutAccepts(net.response) ==> r.store == Put(s, CACHE_NAME, url, net.response)
    ensures net.Fetched? && !PutAccepts(net.response) ==> r.store == Open(s, CACHE_NAME)
    ensures net.NetworkFailure? ==> r.store == s
    ensures net.NetworkFailure? ==> r.reply == (if Match(s, url).Some? then Respond(Match(s, url).value) else NetworkError)
  {
    match net
    case Fetched(resp) =>
      FetchStep(Respond(resp), if PutAccepts(resp) then Put(s, CACHE_NAME, url, resp) else Open(s, CACHE_NAME))
    case NetworkFailure =>
      FetchStep(match Match(s, url) case Some(cached) => Respond(cached) case None => NetworkError, s)
  }

  /**
   * Cache first with background refresh. A hit is answered with the cached
   * entry at once; the refresh overwrites the CACHE_NAME entry only with a 200
   * response. A miss goes to the network: a 200 response is stored and
   * returned, any other status is returned unstored, and a network failure
   * is answered with the offline page.
   */
  function CacheFirstPolicy(s: Store, url: Url, net: NetResult): (r: FetchStep)
    requires WellFormed(s)
    ensures WellFormed(r.store)
    ensures Match(s, url).Some? ==> r.reply == Respond(Match(s, url).value)
    ensures Match(s, url).None? && net.Fetched? ==> r.reply == Respond(net.response)
    ensures Match(s, url).None? && net.NetworkFailure? ==> r.reply == Respond(OFFLINE_PAGE)
    ensures net.Fetched? && net.response.status == 200 ==> r.store == Put(s, CACHE_NAME, url, net.response)
    ensures !(net.Fetched? && net.response.status == 200) ==> r.store == s
  {
    var refreshed := if net.Fetched? && net.response.status == 200 then Put(s, CACHE_NAME, url, net.response) else s;
    match Match(s, url)
    case Some(cached) => FetchStep(Respond(cached), refreshed)
    case None =>
      match net
      case Fetched(resp) => FetchStep(Respond(resp), refreshed)
      case NetworkFailure => FetchStep(Respond(OFFLINE_PAGE), s)
  }

  /**
   * The fetch handler: route, then apply the policy. Whatever happens, only
   * the CACHE_NAME cache is written, only its entry for the request's URL
   * changes, and nothing is written when the network fails.
   */
  function Fetch(s: Store, req: Request, net: NetResult): (r: FetchStep)
    requires WellFormed(s)
    ensures WellFormed(r.store)
    ensures r.reply == NotIntercepted <==> Classify(req) == Bypass
    ensures Classify(req) == Bypass || net.NetworkFailure? ==> r.store == s
    ensures OnlyCurrentWritten(s, r.store)
  {
    match Classify(req)
    case Bypass => FetchStep(NotIntercepted, s)
    case NetworkFirst =>
      var r := FontPolicy(s, req.url, net);
      WritesOnlyCurrent(s, req.url, net);
      r
    case CacheFirst =>
      var r := CacheFirstPolicy(s, req.url, net);
      WritesOnlyCurrent(s, req.url, net);
      r
  }

  /**
   * `t` differs from `s` at most in CACHE_NAME: no cache is deleted, only
   * CACHE_NAME can be created, and every other cache keeps its entries.
   */
  predicate OnlyCurrentWritten(s: Store, t: Store) {
    && s.caches.Keys <= t.caches.Keys <= s.caches.Keys + {CACHE_NAME}
    && forall n :: n in s.caches && n != CACHE_NAME ==> t.caches[n] == s.caches[n]
  }

  /** Both fetch policies write at most CACHE_NAME. */
  lemma WritesOnlyCurrent(s: Store, url: Url, net: NetResult)
    requires WellFormed(s)
    ensures OnlyCurrentWritten(s, FontPolicy(s, url, net).store)
    ensures OnlyCurrentWritten(s, CacheFirstPolicy(s, url, net).store)
  {
    if net.Fetched? {
      var p := Put(s, CACHE_NAME, url, net.response);
      assert OnlyCurrentWritten(s, p);
      assert OnlyCurrentWritten(s, Open(s, CACHE_NAME));
    }
  }

  // ---------------------------------------------------------------------------
  // Install, activate, message

  /**
   * Install: CACHE_NAME is opened (so it exists afterwards whatever happens),
   * the mandatory files are added all-or-nothing, and only if that succeeds
   * is the font stylesheet tried, its failure swallowed. Install completes
   * (and asks to skip waiting) exactly when the mandatory files were stored.
   */
  function Install(s: Store, net: Url -> NetResult): (r: InstallStep)
    requires WellFormed(s)
    ensures WellFormed(r.store)
    ensures r.completed <==> AddAllAccepts(net(INDEX_URL)) && AddAllAccepts(net(MANIFEST_URL))
    ensures r.store.caches.Keys == s.caches.Keys + {CACHE_NAME}
    ensures forall n :: n in s.caches && n != CACHE_NAME ==> r.store.caches[n] == s.caches[n]
    ensures !r.completed ==> r.store == Open(s, CACHE_NAME)
    ensures r.store.names == Open(s, CACHE_NAME).names
  {
    var created := Open(s, CACHE_NAME);
    assert (forall u | u in MANDATORY :: AddAllAccepts(net(u)))
           <==> (AddAllAccepts(net(INDEX_URL)) && AddAllAccepts(net(MANIFEST_URL)));
    match AddAll(created, CACHE_NAME, MANDATORY, net)
    case None => InstallStep(false, created)
    case Some(core) =>
      match AddAll(core, CACHE_NAME, BEST_EFFORT, net)
      case None => InstallStep(true, core)
      case Some(withFonts) => InstallStep(true, withFonts)
  }

  /** Activate: every cache other than CACHE_NAME is deleted; CACHE_NAME is kept as it is. */
  function Activate(s: Store): (r: Store)
    requires WellFormed(s)
    ensures WellFormed(r)
    ensures r.caches.Keys == s.caches.Keys * {CACHE_NAME}
    ensures forall n :: n in r.caches ==> r.caches[n] == s.caches[n]
  {
    if CACHE_NAME in s.caches then Store([CACHE_NAME], map[CACHE_NAME := s.caches[CACHE_NAME]]) else Store([], map[])
  }

  /** The message handler reacts only to data whose `type` is "SKIP_WAITING". */
  predicate RequestsSkipWaiting(messageType: Option<string>) {
    messageType == Some("SKIP_WAITING")
  }

  // ---------------------------------------------------------------------------
  // The worker

  /** Cache names that activate deletes among `names`. */
  function Doomed(names: seq<CacheName>): set<CacheName> {
    set n | n in names && n != CACHE_NAME
  }

  /**
   * The running worker: the origin's cache storage, plus whether it has
   * called `skipWaiting` and `clients.claim`.
   */
  class Worker {
    var names: seq<CacheName>
    var caches: map<CacheName, Cache>
    var skipWaitingCalled: bool
    var clientsClaimed: bool

    function State(): Store
      reads this
    {
      Store(names, caches)
    }

    ghost predicate Valid()
      reads this
    {
      WellFormed(State())
    }

    /** A fresh worker over whatever caches earlier versions left behind. */
    constructor (initial: Store)
      requires WellFormed(initial)
      ensures Valid() && State() == initial
      ensures !skipWaitingCalled && !clientsClaimed
    {
      names, caches := initial.names, initial.caches;
      skipWaitingCalled, clientsClaimed := false, false;
    }

    /** `caches.match(url)` on the current storage. */
    function MatchUrl(url: Url): Option<Response>
      reads this
      requires Valid()
    {
      Match(State(), url)
    }

    method OpenCache(name: CacheName)
      requires Valid()
      modifies this`names, this`caches
      ensures Valid() && State() == Open(old(State()), name)
    {
      if name !in caches {
        names, caches := names + [name], caches[name := map[]];
      }
    }

    method PutEntry(name: CacheName, url: Url, resp: Response)
      requires Valid()
      modifies this`names, this`caches
      ensures Valid() && State() == Put(old(State()), name, url, resp)
    {
      OpenCache(name);
      caches := caches[name := caches[name][url := resp]];
    }

    method DeleteCache(name: CacheName) returns (existed: bool)
      requires Valid()
      modifies this`names, this`caches
      ensures Valid() && State() == Delete(old(State()), name)
      ensures existed == (name in old(caches))
    {
      existed := name in caches;
      names, caches := Without(names, {name}), caches - {name};
    }

    method AddAllEntries(name: CacheName, urls: seq<Url>, net: Url -> NetResult) returns (ok: bool)
      requires Valid() && name in caches
      modifies this`names, this`caches
      ensures Valid()
      ensures ok == AddAll(old(State()), name, urls, net).Some?
      ensures State() == AddAll(old(State()), name, urls, net).GetOr(old(State()))
    {
      var r := AddAll(State(), name, urls, net);
      ok := r.Some?;
      if ok {
        names, caches := r.value.names, r.value.caches;
      }
    }

    /** The install listener. */
    method OnInstall(net: Url -> NetResult) returns (completed: bool)
      requires Valid()
      modifies this`names, this`caches, this`skipWaitingCalled
      ensures Valid()
      ensures completed == Install(old(State()), net).completed
      ensures State() == Install(old(State()), net).store
      ensures skipWaitingCalled == (old(skipWaitingCalled) || completed)
    {
      OpenCache(CACHE_NAME);
      completed := AddAllEntries(CACHE_NAME, MANDATORY, net);
      if completed {
        var fontsCached := AddAllEntries(CACHE_NAME, BEST_EFFORT, net);
        skipWaitingCalled := true;
      }
    }

    /** The activate listener: delete, one by one, every cache not named CACHE_NAME, then claim the clients. */
    method OnActivate()
      requires Valid()
      modifies this`names, this`caches, this`clientsClaimed
      ensures Valid() && State() == Activate(old(State()))
      ensures clientsClaimed
    {
      var keys := names;
      ghost var initial := caches;
      var i := 0;
      WithoutNothing(keys, {});
      assert Doomed(keys[..0]) == {};
      assert initial - {} == initial;
      while i < |keys|
        invariant 0 <= i <= |keys|
        invariant Valid()
        invariant names == Without(keys, Doomed(keys[..i]))
        invariant caches == initial - Doomed(keys[..i])
      {
        PruneStep(keys, initial, i);
        if keys[i] != CACHE_NAME {
          var existed := DeleteCache(keys[i]);
        }
        i := i + 1;
      }
      assert keys[..i] == keys;
      ActivateByPruning(old(State()));
      clientsClaimed := true;
    }

    /** The fetch listener. */
    method OnFetch(req: Request, net: NetResult) returns (reply: Reply)
      requires Valid()
      modifies this`names, this`caches
      ensures Valid()
      ensures reply == Fetch(old(State()), req, net).reply
      ensures State() == Fetch(old(State()), req, net).store
    {
      var route := Classify(req);
      match route
      case Bypass =>
        reply := NotIntercepted;
      case NetworkFirst =>
        reply := FetchFont(req.url, net);
      case CacheFirst =>
        reply := FetchCacheFirst(req.url, net);
    }

    /** The font branch of the fetch listener. */
    method FetchFont(url: Url, net: NetResult) returns (reply: Reply)
      requires Valid()
      modifies this`names, this`caches
      ensures Valid()
      ensures reply == FontPolicy(old(State()), url, net).reply
      ensures State() == FontPolicy(old(State()), url, net).store
    {
      match net
      case Fetched(resp) =>
        if PutAccepts(resp) {
          PutEntry(CACHE_NAME, url, resp);
        } else {
          OpenCache(CACHE_NAME);
        }
        reply := Respond(resp);
      case NetworkFailure =>
        var cached := MatchUrl(url);
        reply := if cached.Some? then Respond(cached.value) else NetworkError;
    }

    /** The cache-first branch of the fetch listener, background refresh included. */
    method FetchCacheFirst(url: Url, net: NetResult) returns (reply: Reply)
      requires Valid()
      modifies this`names, this`caches
      ensures Valid()
      ensures reply == CacheFirstPolicy(old(State()), url, net).reply
      ensures State() == CacheFirstPolicy(old(State()), url, net).store
    {
      var cached := MatchUrl(url);
      if cached.Some? {
        reply := Respond(cached.value);
        if net.Fetched? && net.response.status == 200 {
          PutEntry(CACHE_NAME, url, net.response);
        }
      } else {
        match net
        case NetworkFailure =>
          reply := Respond(OFFLINE_PAGE);
        case Fetched(resp) =>
          if resp.status == 200 {
            PutEntry(CACHE_NAME, url, resp);
          }
          reply := Respond(resp);
      }
    }

    /** The message listener. */
    method OnMessage(messageType: Option<string>)
      modifies this`skipWaitingCalled
      ensures skipWaitingCalled == (old(skipWaitingCalled) || RequestsSkipWaiting(messageType))
    {
      if RequestsSkipWaiting(messageType) {
        skipWaitingCalled := true;
      }
    }
  }

  /** The store once the caches in `gone` have been deleted from the one listed by `keys`. */
  ghost function Pruned(keys: seq<CacheName>, caches: map<CacheName, Cache>, gone: set<CacheName>): Store {
    Store(Without(keys, gone), caches - gone)
  }

  /**
   * One turn of the activate loop: deleting `keys[i]` when it is not
   * CACHE_NAME, and doing nothing otherwise, extends the pruning by one key.
   */
  lemma PruneStep(keys: seq<CacheName>, caches: map<CacheName, Cache>, i: nat)
    requires i < |keys|
    ensures var before := Pruned(keys, caches, Doomed(keys[..i]));
            var after := Pruned(keys, caches, Doomed(keys[..i + 1]));
            if keys[i] != CACHE_NAME then Delete(before, keys[i]) == after else before == after
  {
    var gone := Doomed(keys[..i]);
    assert keys[..i + 1] == keys[..i] + [keys[i]];
    if keys[i] != CACHE_NAME {
      assert Doomed(keys[..i + 1]) == gone + {keys[i]};
      WithoutTwice(keys, gone, keys[i]);
      assert caches - gone - {keys[i]} == caches - (gone + {keys[i]});
    } else {
      assert Doomed(keys[..i + 1]) == gone;
    }
  }

  lemma ActivateByPruning(s: Store)
    requires WellFormed(s)
    ensures Pruned(s.names, s.caches, Doomed(s.names)) == Activate(s)
  {
    WithoutAllButCurrent(s.names);
    assert s.caches - Doomed(s.names) == Activate(s).caches;
  }

  lemma {:induction false} WithoutTwice(names: seq<CacheName>, gone: set<CacheName>, n: CacheName)
    ensures Without(Without(names, gone), {n}) == Without(names, gone + {n})
    decreases |names|
  {
    if names != [] {
      WithoutTwice(names[1..], gone, n);
    }
  }

  /** With distinct names, removing all but CACHE_NAME leaves CACHE_NAME alone, if it was there. */
  lemma {:induction false} WithoutAllButCurrent(names: seq<CacheName>)
    requires Distinct(names)
    ensures Without(names, Doomed(names)) == if CACHE_NAME in names then [CACHE_NAME] else []
  {
    KeepOnly(names, Doomed(names));
  }

  lemma {:induction false} KeepOnly(names: seq<CacheName>, gone: set<CacheName>)
    requires Distinct(names)
    requires forall n :: n in names && n != CACHE_NAME ==> n in gone
    ensures Without(names, gone) == if CACHE_NAME in names && CACHE_NAME !in gone then [CACHE_NAME] else []
    decreases |names|
  {
    if names != [] {
      assert forall i, j :: 0 <= i < j < |names[1..]| ==> names[1..][i] == names[i + 1] && names[1..][j] == names[j + 1];
      KeepOnly(names[1..], gone);
      if names[0] == CACHE_NAME {
        assert CACHE_NAME !in names[1..];
      }
    }
  }

  // ---------------------------------------------------------------------------
  // Properties of the handlers

  /** A request that is not a GET is not intercepted and no cache changes. */
  lemma NonGetNotIntercepted(s: Store, req: Request, net: NetResult)
    requires WellFormed(s) && req.httpMethod != "GET"
    ensures Fetch(s, req, net) == FetchStep(NotIntercepted, s)
  {
  }

  /**
   * A GET for a URL starting with "chrome-extension" or containing
   * "extension" is not intercepted, even when it names a font host.
   */
  lemma ExtensionUrlsNotIntercepted(s: Store, req: Request, net: NetResult)
    requires WellFormed(s) && req.httpMethod == "GET"
    requires StartsWith(req.url, "chrome-extension") || Includes(req.url, "extension")
    ensures Fetch(s, req, net) == FetchStep(NotIntercepted, s)
  {
    ChromeExtensionIncludesExtension(req.url);
  }

  /**
   * Font request, network up: the network's response is returned unchanged
   * and becomes the CACHE_NAME entry for the URL whatever its status (a 206
   * is refused by `cache.put`); no other entry and no other cache changes.
   */
  lemma FontOnlineCaches(s: Store, req: Request, resp: Response)
    requires WellFormed(s) && Classify(req) == NetworkFirst && PutAccepts(resp)
    ensures var r := Fetch(s, req, Fetched(resp));
      && r.reply == Respond(resp)
      && CACHE_NAME in r.store.caches && r.store.caches[CACHE_NAME][req.url] == resp
      && r.store.caches.Keys == s.caches.Keys + {CACHE_NAME}
      && (forall n :: n in s.caches && n != CACHE_NAME ==> r.store.caches[n] == s.caches[n])
      && (forall u :: u != req.url && CACHE_NAME in s.caches && u in s.caches[CACHE_NAME] ==>
            u in r.store.caches[CACHE_NAME] && r.store.caches[CACHE_NAME][u] == s.caches[CACHE_NAME][u])
  {
  }

  /**
   * Font request, network down: the reply is whatever `caches.match` finds in
   * any cache, a network error when nothing is found, and nothing is written.
   */
  lemma FontOfflineFallsBack(s: Store, req: Request)
    requires WellFormed(s) && Classify(req) == NetworkFirst
    ensures var r := Fetch(s, req, NetworkFailure);
      && r.store == s
      && (r.reply.Respond? <==> exists n :: n in s.caches && req.url in s.caches[n])
      && (r.reply.Respond? ==> exists n :: n in s.caches && req.url in s.caches[n] && s.caches[n][req.url] == r.reply.response)
      && (r.reply.NetworkError? <==> forall n :: n in s.caches ==> req.url !in s.caches[n])
  {
  }

  /**
   * Cache-first hit: the caller gets exactly the stored entry, whatever the
   * network does. The refresh overwrites the CACHE_NAME entry with a 200
   * response only; any other answer, or a failure, leaves the store alone.
   */
  lemma CacheHitServesStored(s: Store, req: Request, net: NetResult)
    requires WellFormed(s) && Classify(req) == CacheFirst && Match(s, req.url).Some?
    ensures var r := Fetch(s, req, net);
      && r.reply == Respond(Match(s, req.url).value)
      && (net.Fetched? && net.response.status == 200 ==>
            r.store.caches[CACHE_NAME][req.url] == net.response)
      && (!(net.Fetched? && net.response.status == 200) ==> r.store == s)
  {
  }

  /**
   * Cache-first miss: a 200 response is stored and returned, any other
   * status is returned and not stored, a network failure gets the offline
   * page (status 200, Content-Type text/html) and stores nothing.
   */
  lemma CacheMissGoesToNetwork(s: Store, req: Request, net: NetResult)
    requires WellFormed(s) && Classify(req) == CacheFirst && Match(s, req.url).None?
    ensures var r := Fetch(s, req, net);
      && (net.Fetched? ==> r.reply == Respond(net.response))
      && (net.Fetched? && net.response.status == 200 ==>
            r.store.caches[CACHE_NAME][req.url] == net.response && Match(r.store, req.url) == Some(net.response))
      && (net.Fetched? && net.response.status != 200 ==> r.store == s)
      && (net.NetworkFailure? ==> r.store == s && r.reply == Respond(OFFLINE_PAGE))
      && OFFLINE_PAGE.status == 200 && OFFLINE_PAGE.contentType == Some("text/html")
  {
    if net.Fetched? && net.response.status == 200 {
      var t := Put(s, CACHE_NAME, req.url, net.response);
      assert forall n :: n in s.caches ==> req.url !in s.caches[n];
      assert forall n :: n in t.caches && n != CACHE_NAME ==> req.url !in t.caches[n];
      MatchUnique(t, req.url, CACHE_NAME);
    }
  }

  /** When exactly one cache holds `url`, `caches.match` returns that cache's entry. */
  lemma MatchUnique(s: Store, url: Url, name: CacheName)
    requires WellFormed(s) && name in s.caches && url in s.caches[name]
    requires forall n :: n in s.caches && n != name ==> url !in s.caches[n]
    ensures Match(s, url) == Some(s.caches[name][url])
  {
  }

  /**
   * Fetch writes at most one entry: every cache keeps all its entries for
   * other URLs (a cache may only be created, empty, by `caches.open`).
   */
  lemma FetchWritesOnlyItsUrl(s: Store, req: Request, net: NetResult, n: CacheName, u: Url)
    requires WellFormed(s) && u != req.url
    ensures var r := Fetch(s, req, net);
      && (n in s.caches && u in s.caches[n] ==> u in r.store.caches[n] && r.store.caches[n][u] == s.caches[n][u])
      && (n in r.store.caches && u in r.store.caches[n] ==> n in s.caches && u in s.caches[n])
  {
    var r := Fetch(s, req, net);
    if n != CACHE_NAME || Classify(req) == Bypass || net.NetworkFailure? {
      assert n in s.caches ==> r.store.caches[n] == s.caches[n];
    } else if Classify(req) == NetworkFirst {
      assert r == FontPolicy(s, req.url, net);
    } else {
      assert r == CacheFirstPolicy(s, req.url, net);
    }
  }

  /** Writing the same response for the same key twice is the same as writing it once. */
  lemma PutIdempotent(s: Store, name: CacheName, url: Url, resp: Response)
    requires WellFormed(s)
    ensures Put(Put(s, name, url, resp), name, url, resp) == Put(s, name, url, resp)
  {
    var t := Put(s, name, url, resp);
    assert Open(t, name) == t;
    assert t.caches[name][url := resp] == t.caches[name];
    assert t.caches[name := t.caches[name]] == t.caches;
  }

  /**
   * Install with a mandatory file refused: install does not complete and no
   * mandatory entry is written; the only change is that CACHE_NAME exists,
   * empty if it was not there before.
   */
  lemma InstallAllOrNothing(s: Store, net: Url -> NetResult)
    requires WellFormed(s)
    requires !AddAllAccepts(net(INDEX_URL)) || !AddAllAccepts(net(MANIFEST_URL))
    ensures var r := Install(s, net);
      && !r.completed
      && (CACHE_NAME in s.caches ==> r.store == s)
      && (CACHE_NAME !in s.caches ==> r.store.caches == s.caches[CACHE_NAME := map[]]
                                      && r.store.names == s.names + [CACHE_NAME])
  {
  }

  /**
   * Install with both mandatory files accepted completes whatever happens to
   * the font stylesheet: both files are stored, and the stylesheet is stored
   * exactly when it was accepted.
   */
  lemma InstallFontIsBestEffort(s: Store, net: Url -> NetResult)
    requires WellFormed(s)
    requires AddAllAccepts(net(INDEX_URL)) && AddAllAccepts(net(MANIFEST_URL))
    ensures var r := Install(s, net);
      && r.completed
      && r.store.caches[CACHE_NAME][INDEX_URL] == net(INDEX_URL).response
      && r.store.caches[CACHE_NAME][MANIFEST_URL] == net(MANIFEST_URL).response
      && (AddAllAccepts(net(FONT_URL)) ==> r.store.caches[CACHE_NAME][FONT_URL] == net(FONT_URL).response)
      && (!AddAllAccepts(net(FONT_URL)) ==>
            (FONT_URL in r.store.caches[CACHE_NAME] <==> FONT_URL in Open(s, CACHE_NAME).caches[CACHE_NAME]))
      && (!AddAllAccepts(net(FONT_URL)) && FONT_URL in r.store.caches[CACHE_NAME] ==>
            r.store.caches[CACHE_NAME][FONT_URL] == s.caches[CACHE_NAME][FONT_URL])
  {
    var created := Open(s, CACHE_NAME);
    InstallUrlsDistinct();
    assert forall u | u in MANDATORY :: AddAllAccepts(net(u));
    var core := AddAll(created, CACHE_NAME, MANDATORY, net).value;
    assert core.caches[CACHE_NAME][INDEX_URL] == net(INDEX_URL).response;
    assert core.caches[CACHE_NAME][MANIFEST_URL] == net(MANIFEST_URL).response;
    assert FONT_URL in core.caches[CACHE_NAME] <==> FONT_URL in created.caches[CACHE_NAME];
    var fonts := AddAll(core, CACHE_NAME, BEST_EFFORT, net);
    assert Install(s, net).store == if fonts.Some? then fonts.value else core;
    if fonts.Some? {
      assert INDEX_URL !in BEST_EFFORT && MANIFEST_URL !in BEST_EFFORT;
      assert FONT_URL in BEST_EFFORT;
    }
  }

  /** The pre-cached URLs are three different strings. */
  lemma InstallUrlsDistinct()
    ensures FONT_URL !in MANDATORY && INDEX_URL !in BEST_EFFORT && MANIFEST_URL !in BEST_EFFORT
    ensures INDEX_URL in MANDATORY && MANIFEST_URL in MANDATORY && FONT_URL in BEST_EFFORT
  {
    assert |FONT_URL| != |INDEX_URL| && |FONT_URL| != |MANIFEST_URL|;
  }

  /**
   * Install writes no URL outside its two literal lists: every other entry
   * CACHE_NAME held stays, with its value, and none is added.
   */
  lemma InstallKeepsOtherEntries(s: Store, net: Url -> NetResult, u: Url)
    requires WellFormed(s) && u !in MANDATORY && u !in BEST_EFFORT
    ensures var r := Install(s, net);
      && (u in r.store.caches[CACHE_NAME] <==> CACHE_NAME in s.caches && u in s.caches[CACHE_NAME])
      && (u in r.store.caches[CACHE_NAME] ==> r.store.caches[CACHE_NAME][u] == s.caches[CACHE_NAME][u])
  {
    var created := Open(s, CACHE_NAME);
    assert u in created.caches[CACHE_NAME] <==> CACHE_NAME in s.caches && u in s.caches[CACHE_NAME];
    assert u in created.caches[CACHE_NAME] ==> created.caches[CACHE_NAME][u] == s.caches[CACHE_NAME][u];
    if AddAllAccepts(net(INDEX_URL)) && AddAllAccepts(net(MANIFEST_URL)) {
      assert forall v | v in MANDATORY :: AddAllAccepts(net(v));
      var core := AddAll(created, CACHE_NAME, MANDATORY, net).value;
      var fonts := AddAll(core, CACHE_NAME, BEST_EFFORT, net);
      assert Install(s, net).store == if fonts.Some? then fonts.value else core;
    }
  }

  /**
   * The URLs of CACHE_FILES that install does not name are the two icons,
   * and install leaves their entries as they were.
   */
  lemma InstallIgnoresCacheFiles(s: Store, net: Url -> NetResult, u: Url)
    requires WellFormed(s) && u in CACHE_FILES && u !in MANDATORY && u !in BEST_EFFORT
    ensures u == "./icon-192.png" || u == "./icon-512.png"
    ensures var r := Install(s, net);
      && (u in r.store.caches[CACHE_NAME] <==> CACHE_NAME in s.caches && u in s.caches[CACHE_NAME])
      && (u in r.store.caches[CACHE_NAME] ==> r.store.caches[CACHE_NAME][u] == s.caches[CACHE_NAME][u])
  {
    InstallKeepsOtherEntries(s, net, u);
  }

  /** After activate only CACHE_NAME can answer `caches.match`, with the entry it held. */
  lemma MatchAfterActivate(s: Store, url: Url)
    requires WellFormed(s)
    ensures Match(Activate(s), url) ==
              if CACHE_NAME in s.caches && url in s.caches[CACHE_NAME] then Some(s.caches[CACHE_NAME][url]) else None
  {
    if CACHE_NAME in s.caches && url in s.caches[CACHE_NAME] {
      MatchUnique(Activate(s), url, CACHE_NAME);
    }
  }

  /** Activating twice is activating once. */
  lemma ActivateIdempotent(s: Store)
    requires WellFormed(s)
    ensures Activate(Activate(s)) == Activate(s)
  {
  }

  /**
   * Match order: when a cache created before CACHE_NAME holds the same URL,
   * `caches.match` answers a cache-first request from that earlier cache,
   * not from CACHE_NAME; once activate has deleted it, CACHE_NAME's entry
   * is served.
   */
  lemma EarlierCacheAnswersFirst(v3Entry: Response, v4Entry: Response, net: NetResult)
    ensures var s := Store(["ronins-maths-v3.0", CACHE_NAME],
                           map["ronins-maths-v3.0" := map[INDEX_URL := v3Entry], CACHE_NAME := map[INDEX_URL := v4Entry]]);
      && WellFormed(s)
      && Fetch(s, Request("GET", INDEX_URL), net).reply == Respond(v3Entry)
      && Fetch(Activate(s), Request("GET", INDEX_URL), net).reply == Respond(v4Entry)
  {
    var older: CacheName := "ronins-maths-v3.0";
    assert older != CACHE_NAME by { assert older[14] != CACHE_NAME[14]; }
    var s := Store([older, CACHE_NAME], map[older := map[INDEX_URL := v3Entry], CACHE_NAME := map[INDEX_URL := v4Entry]]);
    assert WellFormed(s);
    assert MatchIn(s.names, s.caches, INDEX_URL) == Some(v3Entry) by {
      assert Holds(s.caches, older, INDEX_URL);
    }
    IndexIsCacheFirst();
    MatchAfterActivate(s, INDEX_URL);
    assert Activate(s).caches[CACHE_NAME] == map[INDEX_URL := v4Entry];
  }

  /** "./index.html" is routed cache-first. */
  lemma IndexIsCacheFirst()
    ensures Classify(Request("GET", INDEX_URL)) == CacheFirst
  {
    NotIncluded(INDEX_URL, "extension");
    NotIncludedShort(INDEX_URL, "fonts.googleapis.com");
    NotIncludedShort(INDEX_URL, "fonts.gstatic.com");
  }

  lemma NotIncluded(s: string, p: string)
    requires p != [] && forall i :: 0 <= i <= |s| - |p| ==> s[i] != p[0]
    ensures !Includes(s, p)
  {
    forall i | 0 <= i <= |s| - |p| ensures !StartsWith(s[i..], p) {
      assert s[i..][..|p|][0] == s[i];
    }
  }

  lemma NotIncludedShort(s: string, p: string)
    requires |s| < |p|
    ensures !Includes(s, p)
  {
  }

  /**
   * Offline install followed by activate: with both mandatory files served
   * and the font host unreachable, install completes, and afterwards a
   * request for "./index.html" is answered from the new cache, even offline.
   */
  lemma OfflineFontInstallServesIndex(s: Store, net: Url -> NetResult)
    requires WellFormed(s)
    requires AddAllAccepts(net(INDEX_URL)) && AddAllAccepts(net(MANIFEST_URL)) && net(FONT_URL) == NetworkFailure
    ensures var i := Install(s, net);
      && i.completed
      && Fetch(Activate(i.store), Request("GET", INDEX_URL), NetworkFailure).reply == Respond(net(INDEX_URL).response)
  {
    var i := Install(s, net);
    InstallFontIsBestEffort(s, net);
    MatchAfterActivate(i.store, INDEX_URL);
    IndexIsCacheFirst();
  }
}

=== FILE: wrappers.dfy ===
/** Optional values: JavaScript's `undefined`/`null` next to a present value. */
module Wrappers {

  datatype Option<+T> = None | Some(value: T) {

    /** The value when present, `default` otherwise. */
    function GetOr(default: T): T {
      match this
      case Some(v) => v
      case None => default
    }
  }
}
